=== FILE: README.md ===
# Assessment Writer — a Dafny model of its pure core

Assessment Writer is a small web application. A teacher picks a grade level
and types four pieces of curriculum text: the section narrative, the section
learning goals, the standards and the lesson learning goals. The application
then does four things:

- it builds one prompt from those inputs;
- it sends the prompt to a text-completion service;
- it cuts the returned text into question blocks;
- it shows those blocks as styled HTML.

A fixed table maps each grade level to a reference PDF.

This project models the parts of `streamlit_app.py` that are pure logic:

- **References** (`references.dfy`):
  - `get_reference_file`, the grade-to-document table;
  - the twelve choices of the grade selector (`grade_options`);
  - the path `load_pdf_by_grade` builds from a table entry, and its "no
    mapping" branch.
- **Prompt** (`prompt.dfy`): the f-string that `get_response` sends. It is
  modelled as a pure function of the five inputs.
  - The template text matches the source character for character: its
    four-space indentation, its line breaks, and the opening line break after
    `f"""`.
- **Formatter** (`formatter.dfy`): `format_response`, in two forms:
  - a method that follows the source's loop;
  - a declarative definition. The method is proved equal to it.
- **Text** (`text.dfy`): the Python `str` operations that `format_response`
  calls, defined as Python defines them:
  - `strip()` (line 160), using the full `str.isspace()` character set;
  - `split(sep)` (line 156), characterised by leftmost, non-overlapping
    matches that join back to the input;
  - `replace("\n", "<br>")` (line 172).

  Two helpers define these. `Find` is the leftmost-occurrence search that
  `split` performs for each separator it consumes. `Join` puts a separator
  between parts: with the separator it states what `split` must give back,
  and with the empty string it is the concatenation the `+=` on line 164
  accumulates.
- **Wrappers** (`wrappers.dfy`): `Option`, standing for a dictionary lookup
  that may return `None`.

Two behaviours of the code are worth stating:

- **Splitting the response.** `format_response` splits on an empty line
  (`"\n\n"`) and drops only fragments that are blank after `strip()`, so any
  text before the first question is kept: as a block of its own when an empty
  line follows it, otherwise inside the first question's block.
  `Formatter.ParagraphsRenderInOrder` and `Formatter.TwoQuestionsTwoBlocks`
  state this: two questions separated by an empty line give exactly two
  blocks, in order.
- **The prompt holds the five form inputs and nothing else.** `get_response`
  receives only the grade and the four texts, and `load_pdf_by_grade` is
  defined but never called, so no reference-document text reaches the prompt.
  `Prompt.ComposePrompt` takes exactly those five strings.

## Model

| member | source | states |
|---|---|---|
| References.GetReferenceFile | streamlit_app.py:16-32 | The lookup succeeds exactly for the twelve labels the grade selector offers; every other string gives `None`. Every answer is one of the seven reference documents. |
| References.GradeOptionsListed | streamlit_app.py:138 | The selector offers exactly Kindergarten, Grade 1 to Grade 8, Algebra 1, Algebra 2 and Geometry, in that order. |
| References.EarlyGradesShareGrade3File | streamlit_app.py:19-22 | Kindergarten and Grades 1, 2 and 3 all resolve to `grade_3.pdf`. |
| References.MiddleGradesOwnFile | streamlit_app.py:23-27 | Grade n resolves to `grade_n.pdf` for every n from 4 to 8. |
| References.HighSchoolCoursesShareAlgebraFile | streamlit_app.py:28-30 | Algebra 1, Algebra 2 and Geometry all resolve to `algebra_1.pdf`. |
| References.ReferencePath | streamlit_app.py:34-42 | An unmapped grade gives no path (the warning branch). A mapped grade gives the path of its own document: `reference_materials/` followed by the file the table gives it, ending in `.pdf`. |
| References.ReferencePathsAgree | streamlit_app.py:18-42 | Two grades get the same path exactly when the table gives them the same document, so the path identifies the document and nothing else. |
| Text.Strip | streamlit_app.py:160 | The result is empty exactly when the input is blank. Otherwise it is the slice left between a blank prefix and a blank suffix, and it neither starts nor ends with whitespace. |
| Text.Find | streamlit_app.py:156 | The search `split` performs for each separator: there is no answer exactly when the separator does not occur, otherwise the answer is an occurrence with no earlier one. |
| Text.Split | streamlit_app.py:156 | The parts join back to the input with the separator. Each separator consumed is the leftmost one left, and no part contains the separator. |
| Text.SplitUnique | streamlit_app.py:156 | Any sequence of parts with those properties is the split itself, so the characterisation pins `split` down completely. |
| Text.JoinBlank | streamlit_app.py:156-161 | If the joined text is blank, every part is blank. |
| Text.ReplaceNewlines | streamlit_app.py:172 | The result contains no line feed and is at least as long as the input. |
| Text.ReplaceNewlinesAppend | streamlit_app.py:172 | Replacing line feeds distributes over concatenation. |
| Text.ReplaceNewlinesChar | streamlit_app.py:172 | A single line feed becomes `<br>` and any other single character is kept; with the previous row this determines the result on every string. |
| Text.ReplaceNewlinesIdentity | streamlit_app.py:172 | Text without line feeds passes through unchanged. |
| Formatter.Kept | streamlit_app.py:159-161 | A fragment is kept exactly when it occurs in the input and is not blank, and nothing is added. Order and multiplicity are stated by `Formatter.KeptAppend`. |
| Formatter.KeptAppend | streamlit_app.py:159-161 | Filtering a concatenation gives the concatenation of the filtered parts, so the kept fragments keep their order and every repetition. |
| Formatter.Block | streamlit_app.py:164-174 | One fragment's block is the styled `div` opening tag, then the fragment's text with every line feed rendered as `<br>`, then `</div>`; a fragment without line feeds appears verbatim. The block holds no line feed. |
| Formatter.Formatted | streamlit_app.py:154-176 | The declarative rendering: the concatenated blocks of the non-blank fragments. It holds no line feed, and a blank (empty or whitespace-only) response renders as the empty string. |
| Formatter.RendersEmptyOnlyWhenBlank | streamlit_app.py:156-176 | The rendering is the empty string exactly when the response is blank: a non-blank response always has a non-blank fragment, because the separator itself is blank, and every block is non-empty. |
| Formatter.FormatResponse | streamlit_app.py:154-176 | The loop builds exactly the declarative rendering: the blocks of the non-blank fragments in order. The HTML has no line feed, and a blank response renders as the empty string. |
| Formatter.ParagraphsRenderInOrder | streamlit_app.py:156-173 | The input is paragraphs joined by empty lines, where no paragraph holds an empty line and none but the last ends with a line feed. It renders as one block per non-blank paragraph, in order. |
| Formatter.TwoQuestionsTwoBlocks | streamlit_app.py:156-176 | Two non-blank questions separated by an empty line render as exactly the first one's block followed by the second one's. |
| Prompt.ComposePrompt | streamlit_app.py:54-119 | The prompt built from any five inputs holds the rule "Generate exactly 10 questions (5 multiple choice and 5 short answer)" at its fixed place in the role statement, and always holds the no-preamble rule. |
| Prompt.InputsFollowMarkersInOrder | streamlit_app.py:59-64 | Each input appears verbatim right after its own label (`***Grade Level: `, …). The five labelled inputs appear in the order grade, narrative, section goals, standards, lesson goals, without overlapping. |
| Prompt.FilledInputsInOrder | streamlit_app.py:60-64 | The same placement and order hold for any fixed text around the input lines. |
| Prompt.ComposePromptRecoverable | streamlit_app.py:60-64 | Take two sets of inputs whose lengths agree field by field. They give the same prompt only if they are the same inputs, so no input is lost or merged into another. |

## Left out

- Loading the environment, the API key check and `st.stop()` (lines 8-14) are process configuration and I/O.
- Reading the PDF and base64-encoding it (lines 43-44) are file I/O. Only the path built from the table and the `None` branch are modelled, in `References.ReferencePath`.
- The warning that `load_pdf_by_grade` shows on a missing mapping, and its exception handler (lines 39 and 45-47), are user-interface side effects. The model keeps only the `None` result.
- The completion-service call (lines 121-131) is a network call to a foreign service. The model, its system message and its token limit are not modelled, and neither is the text it returns. `Formatter.FormatResponse` takes any response.
- The Streamlit form, button, spinner, success and error messages, and the raw-text expander (lines 134-199) are presentation.
- The check that all fields are filled (line 180) is not modelled either. `Prompt.ComposePrompt` is defined for every input, empty strings included.
- `Text.Strip`: Python's `str.isspace()` is spelled out as an explicit list of characters, taken from the Unicode whitespace property as Python uses it. No Unicode database is consulted.

=== FILE: formatter.dfy ===
/**
 * `format_response`: the completion is cut into fragments at blank lines,
 * blank fragments are dropped, and every other fragment becomes one styled
 * HTML block whose line feeds are rendered as `<br>` tags.
 */
module Formatter {
  import opened Text

  /** The fragments of a response are separated by an empty line. */
  const Separator := "\n\n"

  /** The opening tag of a question block: a light card with a blue left border. */
  const DivOpen :=
    "<div style=\""
    + "background-color: #f8f9fa;"
    + "padding: 20px;"
    + "margin: 10px 0;"
    + "border-radius: 5px;"
    + "border-left: 4px solid #1f77b4;"
    + "\">"

  const DivClose := "</div>"

  /**
   * The HTML block for one fragment: the fragment's text, with its line
   * breaks turned into tags, framed by the styled `div`. The block is a
   * single line.
   */
  function Block(fragment: string): (r: string)
    ensures |r| >= |DivOpen| + |fragment| + |DivClose|
    ensures r[..|DivOpen|] == DivOpen && r[|r| - |DivClose|..] == DivClose
    ensures NoLineFeed(r)
    ensures r[|DivOpen|..|r| - |DivClose|] == ReplaceNewlines(fragment)
    ensures NoLineFeed(fragment) ==> r == DivOpen + fragment + DivClose
  {
    var body := ReplaceNewlines(fragment);
    DivOpenHasNoLineFeed();
    NoLineFeedConcat(DivOpen, body);
    NoLineFeedConcat(DivOpen + body, DivClose);
    ThreeParts(DivOpen, body, DivClose);
    assert (DivOpen + body + DivClose)[|DivOpen|..|DivOpen| + |body|] == body;
    assert NoLineFeed(fragment) ==> body == fragment by {
      if NoLineFeed(fragment) {
        ReplaceNewlinesIdentity(fragment);
      }
    }
    DivOpen + body + DivClose
  }

  /** The fragments that survive the `if not question.strip(): continue` test, in order. */
  function Kept(fragments: seq<string>): (r: seq<string>)
    ensures |r| <= |fragments|
    ensures forall f :: f in r <==> f in fragments && !IsBlank(f)
    decreases |fragments|
  {
    if |fragments| == 0 then []
    else (if IsBlank(fragments[0]) then [] else [fragments[0]]) + Kept(fragments[1..])
  }

  /** One block per fragment, in the same order. */
  function Blocks(fragments: seq<string>): (r: seq<string>)
    ensures |r| == |fragments|
    ensures forall i :: 0 <= i < |r| ==> r[i] == Block(fragments[i])
    decreases |fragments|
  {
    if |fragments| == 0 then [] else [Block(fragments[0])] + Blocks(fragments[1..])
  }

  /**
   * What `format_response` returns, stated declaratively: the blocks of the
   * non-blank fragments of `response.split("\n\n")`, concatenated in order.
   */
  function Formatted(response: string): (r: string)
    ensures NoLineFeed(r)
    ensures IsBlank(response) ==> r == ""
  {
    var blocks := Blocks(Kept(Split(response, Separator)));
    ConcatNoLineFeed(blocks);
    BlankKeepsNothing(response);
    Join(blocks, "")
  }

  /** The rendering is empty exactly when the response is blank. */
  lemma RendersEmptyOnlyWhenBlank(response: string)
    ensures Formatted(response) == "" <==> IsBlank(response)
  {
    var blocks := Blocks(Kept(Split(response, Separator)));
    NonBlankKeepsSomething(response);
    if |blocks| > 0 {
      JoinStartsWithFirst(blocks);
    }
  }

  /** `format_response`, step by step as the source writes it. */
  method FormatResponse(response: string) returns (html: string)
    ensures html == Formatted(response)
    ensures NoLineFeed(html)
    ensures IsBlank(response) ==> html == ""
  {
    var questions := Split(response, Separator);
    html := "";
    for i := 0 to |questions|
      invariant html == Join(Blocks(Kept(questions[..i])), "")
      invariant NoLineFeed(html)
    {
      var question := questions[i];
      RenderStep(questions, i);
      if Strip(question) == "" {
        continue;
      }
      NoLineFeedConcat(html, Block(question));
      AppendBlock(html, DivOpen, ReplaceNewlines(question), DivClose);
      html := html + DivOpen + ReplaceNewlines(question) + DivClose;
    }
    assert questions[..|questions|] == questions;
  }

  /**
   * Text written as paragraphs separated by one empty line renders as one
   * block per non-blank paragraph, in order, provided no paragraph holds an
   * empty line itself and none but the last ends with a line feed.
   */
  lemma {:induction false} ParagraphsRenderInOrder(paragraphs: seq<string>)
    requires |paragraphs| >= 1
    requires forall i :: 0 <= i < |paragraphs| ==> !Contains(paragraphs[i], Separator)
    requires forall i :: 0 <= i < |paragraphs| - 1 ==> EndsCleanly(paragraphs[i])
    ensures Formatted(Join(paragraphs, Separator)) == Join(Blocks(Kept(paragraphs)), "")
  {
    var s := Join(paragraphs, Separator);
    forall i | 0 <= i < |paragraphs| - 1
      ensures NoMatchBefore(paragraphs[i] + Separator, Separator, |paragraphs[i]|)
    {
      SeparatorFirstAtEnd(paragraphs[i]);
    }
    assert IsSplitOf(paragraphs, s, Separator);
    SplitUnique(paragraphs, s, Separator);
  }

  /**
   * Two questions separated by an empty line give exactly two blocks, the
   * first question's before the second's.
   */
  lemma TwoQuestionsTwoBlocks(first: string, second: string)
    requires !IsBlank(first) && !IsBlank(second)
    requires !Contains(first, Separator) && !Contains(second, Separator)
    requires EndsCleanly(first)
    ensures Formatted(first + Separator + second) == Block(first) + Block(second)
  {
    var paragraphs := [first] + [second];
    assert paragraphs[1..] == [second];
    assert Join(paragraphs, Separator) == first + Separator + second;
    ParagraphsRenderInOrder(paragraphs);
    KeptSnoc([first], second);
    assert Kept([first]) == [first] by {
      assert [first][1..] == [];
    }
    BlocksSnoc([first], second);
    ConcatSnoc([Block(first)], Block(second));
  }

  /** The paragraph is empty or does not end with a line feed. */
  predicate EndsCleanly(p: string) {
    |p| == 0 || p[|p| - 1] != '\n'
  }

  // ---------------------------------------------------------------------------
  // Helper facts

  /** In `p + "\n\n"` the first empty line is the appended one. */
  lemma SeparatorFirstAtEnd(p: string)
    requires !Contains(p, Separator) && EndsCleanly(p)
    ensures NoMatchBefore(p + Separator, Separator, |p|)
  {
    forall j | 0 <= j < |p|
      ensures !OccursAt(p + Separator, Separator, j)
    {
      if j + 2 <= |p| {
        OccursAtPrefix(p + Separator, |p|, Separator, j);
        assert (p + Separator)[..|p|] == p;
        assert !OccursAt(p, Separator, j);
      } else {
        assert (p + Separator)[j] == p[|p| - 1];
      }
    }
  }

  /** One more fragment adds its block, or nothing when it is blank. */
  lemma RenderStep(fragments: seq<string>, i: nat)
    requires i < |fragments|
    ensures Join(Blocks(Kept(fragments[..i + 1])), "")
            == Join(Blocks(Kept(fragments[..i])), "") + (if IsBlank(fragments[i]) then "" else Block(fragments[i]))
  {
    var f := fragments[i];
    var before := Kept(fragments[..i]);
    assert fragments[..i + 1] == fragments[..i] + [f];
    KeptSnoc(fragments[..i], f);
    if IsBlank(f) {
      assert Kept(fragments[..i + 1]) == before + [];
      assert before + [] == before;
      assert Join(Blocks(before), "") + "" == Join(Blocks(before), "");
    } else {
      assert Kept(fragments[..i + 1]) == before + [f];
      BlocksSnoc(before, f);
      ConcatSnoc(Blocks(before), Block(f));
    }
  }

  lemma {:induction false} KeptSnoc(fragments: seq<string>, f: string)
    ensures Kept(fragments + [f]) == Kept(fragments) + (if IsBlank(f) then [] else [f])
    decreases |fragments|
  {
    if |fragments| == 0 {
      assert [f][1..] == [];
      assert Kept([f][1..]) == [];
    } else {
      assert (fragments + [f])[0] == fragments[0];
      assert (fragments + [f])[1..] == fragments[1..] + [f];
      KeptSnoc(fragments[1..], f);
    }
  }

  /**
   * The filter keeps order and multiplicity: filtering a concatenation
   * concatenates the filtered parts.
   */
  lemma {:induction false} KeptAppend(a: seq<string>, b: seq<string>)
    ensures Kept(a + b) == Kept(a) + Kept(b)
    decreases |a|
  {
    if |a| == 0 {
      assert a + b == b;
    } else {
      assert (a + b)[0] == a[0];
      assert (a + b)[1..] == a[1..] + b;
      KeptAppend(a[1..], b);
    }
  }

  /**
   * A response that is not blank has a non-blank fragment, because the
   * separator itself is blank; that fragment is kept.
   */
  lemma NonBlankKeepsSomething(response: string)
    ensures !IsBlank(response) ==> |Kept(Split(response, Separator))| > 0
  {
    var parts := Split(response, Separator);
    if !IsBlank(response) {
      if forall i :: 0 <= i < |parts| ==> IsBlank(parts[i]) {
        assert IsBlank(Separator) by {
          assert IsWhitespace('\n');
        }
        JoinAllBlank(parts, Separator);
        assert false;
      }
      var i :| 0 <= i < |parts| && !IsBlank(parts[i]);
      assert parts[i] in Kept(parts);
    }
  }

  /** A concatenation of blocks is at least as long as its first block. */
  lemma JoinStartsWithFirst(blocks: seq<string>)
    requires |blocks| > 0
    ensures |Join(blocks, "")| >= |blocks[0]|
  {
  }

  lemma {:induction false} KeptNoneBlank(fragments: seq<string>)
    requires forall i :: 0 <= i < |fragments| ==> IsBlank(fragments[i])
    ensures Kept(fragments) == []
    decreases |fragments|
  {
    if |fragments| > 0 {
      assert IsBlank(fragments[0]);
      KeptNoneBlank(fragments[1..]);
    }
  }

  lemma BlocksSnoc(fragments: seq<string>, f: string)
    ensures Blocks(fragments + [f]) == Blocks(fragments) + [Block(f)]
  {
  }

  lemma {:induction false} ConcatSnoc(blocks: seq<string>, b: string)
    ensures Join(blocks + [b], "") == Join(blocks, "") + b
    decreases |blocks|
  {
    if |blocks| == 0 {
      assert blocks + [b] == [b];
    } else if |blocks| == 1 {
      assert blocks + [b] == [blocks[0], b];
      assert [blocks[0], b][1..] == [b];
    } else {
      assert (blocks + [b])[1..] == blocks[1..] + [b];
      ConcatSnoc(blocks[1..], b);
    }
  }

  lemma {:induction false} ConcatNoLineFeed(blocks: seq<string>)
    requires forall i :: 0 <= i < |blocks| ==> NoLineFeed(blocks[i])
    ensures NoLineFeed(Join(blocks, ""))
    decreases |blocks|
  {
    if |blocks| > 1 {
      ConcatNoLineFeed(blocks[1..]);
      NoLineFeedConcat(blocks[0], Join(blocks[1..], ""));
      assert blocks[0] + "" == blocks[0];
    }
  }

  /** Appending the three parts of a block one by one appends the block. */
  lemma AppendBlock(html: string, open: string, body: string, close: string)
    ensures html + open + body + close == html + (open + body + close)
  {
  }

  lemma NoLineFeedConcat(a: string, b: string)
    requires NoLineFeed(a) && NoLineFeed(b)
    ensures NoLineFeed(a + b)
  {
    forall i | |a| <= i < |a + b|
      ensures (a + b)[i] != '\n'
    {
      assert (a + b)[i] == b[i - |a|];
    }
  }

  /** A blank response splits into blank fragments only, so none is kept. */
  lemma BlankKeepsNothing(response: string)
    ensures IsBlank(response) ==> Kept(Split(response, Separator)) == []
  {
    if IsBlank(response) {
      var parts := Split(response, Separator);
      JoinBlank(parts, Separator);
      KeptNoneBlank(parts);
    }
  }

  lemma DivOpenHasNoLineFeed()
    ensures NoLineFeed(DivOpen)
  {
    var p0, p1, p2, p3 := "<div style=\"", "background-color: #f8f9fa;", "padding: 20px;", "margin: 10px 0;";
    var p4, p5, p6 := "border-radius: 5px;", "border-left: 4px solid #1f77b4;", "\">";
    assert NoLineFeed(p0) && NoLineFeed(p1) && NoLineFeed(p2) && NoLineFeed(p3);
    assert NoLineFeed(p4) && NoLineFeed(p5) && NoLineFeed(p6);
    NoLineFeedConcat(p0, p1);
    NoLineFeedConcat(p0 + p1, p2);
    NoLineFeedConcat(p0 + p1 + p2, p3);
    NoLineFeedConcat(p0 + p1 + p2 + p3, p4);
    NoLineFeedConcat(p0 + p1 + p2 + p3 + p4, p5);
    NoLineFeedConcat(p0 + p1 + p2 + p3 + p4 + p5, p6);
  }
}

=== FILE: prompt.dfy ===
/**
 * The user message `get_response` sends to the completion service: a fixed
 * template (an indented triple-quoted f-string) with the five form inputs
 * substituted, one per line, in the order grade, narrative, section goals,
 * standards, lesson goals.
 */
module Prompt {
  import opened Text

  /** The f-string keeps the source's four-space indentation on every non-blank line. */
  const Indent := "    "

  /** The fixed instruction fixing the number and kinds of questions. */
  const QuestionCountRule := "Generate exactly 10 questions (5 multiple choice and 5 short answer)"

  /** The fixed instruction forbidding any text besides the ten questions. */
  const NoPreambleRule :=
    "Do not include any preliminary analysis, introductory text, or questions about continuing. Generate all 10 questions at once."

  /** The labels that introduce the five inputs. */
  const GradeMarker := "***Grade Level: "
  const NarrativeMarker := "***Section Narrative: "
  const GoalsMarker := "***Section Learning Goals: "
  const StandardsMarker := "***Standards: "
  const LessonsMarker := "***Lesson Learning Goals: "

  // The template text follows the source line by line: one literal per line
  // before the inputs, one list element per line after them, with the
  // f-string's four-space indentation and line breaks spelled out.

  /** Everything up to the question-count rule: the opening line break and the role statement. */
  const HeadBefore :=
    "\n"
    + "    # CONTEXT #\n"
    + "    You are a mathematics assessment expert. "

  /** From the end of the question-count rule to the first input line. */
  const HeadAfter :=
    " based on the provided content. Complete all analysis internally - do not show your work. "
    + "Return only the formatted questions, rationales, and model responses.\n"
    + "\n"
    + "    # OBJECTIVE #\n"
    + "    >>>INPUTS\n"

  /** The part of the prompt before the first input marker. */
  const Head := HeadBefore + QuestionCountRule + HeadAfter

  /**
   * The template lines between the last input and the no-preamble rule,
   * without their line feeds: the two generation steps, the additional
   * considerations, and the required answer layout (four lettered options
   * for multiple choice, then a rationale and a model response).
   */
  const TailLines: seq<string> := [
    "",
    Indent + "Follow these steps to generate the assessment content:",
    "",
    Indent + ">>>STEP 1 - Build your knowledge base",
    Indent + "a. Review the narrative, goals, lessons, and standards to understand the content. Write a summary of your understanding.",
    Indent + "b. Create a list of skills needed for success in this section.",
    Indent + "c. For each skill, write a description of how it connects to the section content.",
    "",
    Indent + ">>>STEP 2 - Develop Questions",
    Indent + "a. Draft 10 questions (5 multiple choice and 5 short answer) addressing the identified skills.",
    Indent + "b. Review questions against lesson goals and standards to ensure appropriate coverage.",
    Indent + "c. Write a rationale for each question connecting it to specific skills and content.",
    "",
    Indent + "# ADDITIONAL CONSIDERATIONS #",
    Indent + ">>>Structure Questions as Progressive Sequences",
    Indent + "- Start with direct computation",
    Indent + "- Build to pattern recognition",
    Indent + "- End with application and explanation",
    Indent + "- Keep context consistent across parts",
    "",
    Indent + ">>>Context Guidelines",
    Indent + "- Use rich, realistic situations that naturally connect to unit content",
    Indent + "- Maintain same context across multiple parts",
    Indent + "- Ensure numbers and situations are grade-appropriate",
    "",
    Indent + ">>>Required Question Components",
    Indent + "- Direct skill practice",
    Indent + "- Pattern recognition/analysis",
    Indent + "- Written explanation/justification",
    Indent + "- Creation of examples or application to new situations",
    "",
    Indent + ">>>Language Requirements",
    Indent + "- Use consistent mathematical vocabulary",
    Indent + "- Include specific prompts: \"explain why,\" \"show another way,\" \"create an example\"",
    Indent + "- Frame questions to elicit complete mathematical thoughts",
    "",
    Indent + "# OUTPUT FORMAT #",
    Indent + "Return ONLY the questions, rationales, and model responses in this exact format, with no additional text:",
    "",
    Indent + "Question 1: [Question text]",
    Indent + "A) [Option]",
    Indent + "B) [Option]",
    Indent + "C) [Option]",
    Indent + "D) [Option]",
    Indent + "Rationale: [Explanation connecting to skills and content]",
    Indent + "Model Response: [Letter] | [Complete student work showing understanding]",
    "",
    Indent + "Question 2: [Short answer question text]",
    Indent + "Rationale: [Explanation connecting to skills and content]",
    Indent + "Model Response: [Complete student work showing understanding]",
    "",
    Indent + "[Continue through Question 10]",
    ""
  ]

  /** Those lines, each ended by a line feed, then the indentation of the rule's line. */
  const TailBefore := Join(TailLines, "\n") + "\n" + Indent

  /** The no-preamble line's terminator and the indentation before the closing quotes. */
  const TailAfter := "\n" + Indent

  /** The part of the prompt after the last input. */
  const Tail := TailBefore + NoPreambleRule + TailAfter

  /** The markers of the five input lines, in template order. */
  const Markers: seq<string> := [GradeMarker, NarrativeMarker, GoalsMarker, StandardsMarker, LessonsMarker]

  /** One template line holding a marker and the value substituted after it. */
  function InputLine(marker: string, value: string): string {
    Indent + marker + value + "\n"
  }

  /** The input lines, one per marker and value, in order. */
  function InputBlock(markers: seq<string>, values: seq<string>): string
    requires |markers| == |values|
    decreases |markers|
  {
    if |markers| == 0 then "" else InputLine(markers[0], values[0]) + InputBlock(markers[1..], values[1..])
  }

  /** The template with the input lines placed between its fixed head and tail. */
  function Fill(head: string, values: seq<string>, tail: string): (r: string)
    requires |values| == |Markers|
    ensures |r| >= |head| + |tail|
    ensures r[..|head|] == head
    ensures r[|r| - |tail|..] == tail
  {
    ThreeParts(head, InputBlock(Markers, values), tail);
    head + InputBlock(Markers, values) + tail
  }

  /**
   * The composed prompt: fixed text around the five input lines. It is a
   * function of the five strings alone; nothing else (in particular no
   * reference-document text) enters it.
   */
  function ComposePrompt(grade: string, narrative: string, goals: string, standards: string, lessons: string): (r: string)
    ensures OccursAt(r, QuestionCountRule, |HeadBefore|)
    ensures Contains(r, NoPreambleRule)
  {
    var values := [grade, narrative, goals, standards, lessons];
    var inputs := InputBlock(Markers, values);
    OccursInFirst(HeadBefore, QuestionCountRule, HeadAfter, inputs, Tail);
    OccursInLast(Head, inputs, TailBefore, NoPreambleRule, TailAfter);
    Fill(Head, values, Tail)
  }

  /** Where the `k`-th input line starts its marker, after `head` and the earlier input lines. */
  function MarkerStart(head: string, values: seq<string>, k: nat): nat
    requires |values| == |Markers| && k < |Markers|
  {
    |head| + |InputBlock(Markers[..k], values[..k])| + |Indent|
  }

  /**
   * Each input appears verbatim right after its own marker, and the five
   * marked inputs appear in the order grade, narrative, section goals,
   * standards, lesson goals, without overlapping.
   */
  lemma InputsFollowMarkersInOrder(grade: string, narrative: string, goals: string, standards: string, lessons: string)
    ensures var r := ComposePrompt(grade, narrative, goals, standards, lessons);
            var values := [grade, narrative, goals, standards, lessons];
            forall k :: 0 <= k < |Markers| ==> OccursAt(r, Markers[k] + values[k], MarkerStart(Head, values, k))
    ensures var values := [grade, narrative, goals, standards, lessons];
            forall k :: 0 <= k < |Markers| - 1 ==>
              MarkerStart(Head, values, k) + |Markers[k]| + |values[k]| < MarkerStart(Head, values, k + 1)
  {
    FilledInputsInOrder(Head, [grade, narrative, goals, standards, lessons], Tail);
  }

  /** `InputsFollowMarkersInOrder` for any fixed text around the input lines. */
  lemma FilledInputsInOrder(head: string, values: seq<string>, tail: string)
    requires |values| == |Markers|
    ensures forall k :: 0 <= k < |Markers| ==>
              OccursAt(Fill(head, values, tail), Markers[k] + values[k], MarkerStart(head, values, k))
    ensures forall k :: 0 <= k < |Markers| - 1 ==>
              MarkerStart(head, values, k) + |Markers[k]| + |values[k]| < MarkerStart(head, values, k + 1)
  {
    forall k | 0 <= k < |Markers|
      ensures OccursAt(Fill(head, values, tail), Markers[k] + values[k], MarkerStart(head, values, k))
    {
      InputLineAt(head, Markers, values, k, tail);
    }
    forall k | 0 <= k < |Markers| - 1
      ensures MarkerStart(head, values, k) + |Markers[k]| + |values[k]| < MarkerStart(head, values, k + 1)
    {
      InputBlockGrows(Markers, values, k);
    }
  }

  /**
   * Inputs can be read back from the prompt: two prompts built from inputs
   * of the same lengths are equal only if the inputs are.
   */
  lemma ComposePromptRecoverable(a: seq<string>, b: seq<string>)
    requires |a| == |b| == |Markers|
    requires forall k :: 0 <= k < |a| ==> |a[k]| == |b[k]|
    requires ComposePrompt(a[0], a[1], a[2], a[3], a[4]) == ComposePrompt(b[0], b[1], b[2], b[3], b[4])
    ensures a == b
  {
    var va, vb := [a[0], a[1], a[2], a[3], a[4]], [b[0], b[1], b[2], b[3], b[4]];
    assert va == a && vb == b;
    assert Fill(Head, va, Tail) == Fill(Head, vb, Tail);
    FilledInputsRecoverable(Head, va, vb, Tail);
  }

  /** `ComposePromptRecoverable` for any fixed text around the input lines. */
  lemma FilledInputsRecoverable(head: string, a: seq<string>, b: seq<string>, tail: string)
    requires |a| == |b| == |Markers|
    requires forall k :: 0 <= k < |a| ==> |a[k]| == |b[k]|
    requires Fill(head, a, tail) == Fill(head, b, tail)
    ensures a == b
  {
    FilledInputsInOrder(head, a, tail);
    FilledInputsInOrder(head, b, tail);
    var r := Fill(head, a, tail);
    forall k | 0 <= k < |a|
      ensures a[k] == b[k]
    {
      InputBlockLength(Markers[..k], a[..k], b[..k]);
      assert MarkerStart(head, a, k) == MarkerStart(head, b, k);
      assert a[k] == (Markers[k] + a[k])[|Markers[k]|..];
      assert b[k] == (Markers[k] + b[k])[|Markers[k]|..];
    }
  }

  // ---------------------------------------------------------------------------
  // Facts about concatenations, stated over variables so that the template
  // literals are never unfolded.

  /** An input block splits around any one of its lines. */
  lemma {:induction false} InputBlockSplit(ms: seq<string>, vs: seq<string>, k: nat)
    requires |ms| == |vs| && k < |ms|
    ensures InputBlock(ms, vs) == InputBlock(ms[..k], vs[..k]) + InputLine(ms[k], vs[k]) + InputBlock(ms[k + 1..], vs[k + 1..])
    decreases k
  {
    if k == 0 {
      assert ms[..0] == [] && vs[..0] == [];
    } else {
      InputBlockSplit(ms[1..], vs[1..], k - 1);
      assert ms[1..][..k - 1] == ms[..k][1..];
      assert vs[1..][..k - 1] == vs[..k][1..];
      assert ms[1..][k - 1] == ms[k] && vs[1..][k - 1] == vs[k];
      assert ms[1..][k..] == ms[k + 1..] && vs[1..][k..] == vs[k + 1..];
      assert ms[..k][0] == ms[0] && vs[..k][0] == vs[0];
    }
  }

  /** Each input line adds its marker, its value and the indentation and line break around them. */
  lemma InputBlockGrows(ms: seq<string>, vs: seq<string>, k: nat)
    requires |ms| == |vs| && k < |ms|
    ensures |InputBlock(ms[..k + 1], vs[..k + 1])| == |InputBlock(ms[..k], vs[..k])| + |Indent| + |ms[k]| + |vs[k]| + 1
  {
    var ms', vs' := ms[..k + 1], vs[..k + 1];
    InputBlockSplit(ms', vs', k);
    assert ms'[..k] == ms[..k] && vs'[..k] == vs[..k];
    assert ms'[k + 1..] == [] && vs'[k + 1..] == [];
  }

  /** The length of an input block depends only on the lengths of its values. */
  lemma {:induction false} InputBlockLength(ms: seq<string>, vs: seq<string>, ws: seq<string>)
    requires |ms| == |vs| == |ws|
    requires forall j :: 0 <= j < |vs| ==> |vs[j]| == |ws[j]|
    ensures |InputBlock(ms, vs)| == |InputBlock(ms, ws)|
    decreases |ms|
  {
    if |ms| > 0 {
      InputBlockLength(ms[1..], vs[1..], ws[1..]);
    }
  }

  /** Inside any surrounding text, the `k`-th input line carries its marker and value. */
  lemma InputLineAt(pre: string, ms: seq<string>, vs: seq<string>, k: nat, post: string)
    requires |ms| == |vs| && k < |ms|
    ensures OccursAt(pre + InputBlock(ms, vs) + post, ms[k] + vs[k], |pre| + |InputBlock(ms[..k], vs[..k])| + |Indent|)
  {
    InputBlockSplit(ms, vs, k);
    var before := InputBlock(ms[..k], vs[..k]);
    var after := InputBlock(ms[k + 1..], vs[k + 1..]);
    assert InputLine(ms[k], vs[k]) == Indent + (ms[k] + vs[k]) + "\n";
    Regroup(pre, before, Indent, ms[k] + vs[k], "\n", after, post);
    OccursBetween(pre + before + Indent, ms[k] + vs[k], "\n" + after + post);
  }

  lemma Regroup(p: string, b: string, i: string, m: string, n: string, a: string, q: string)
    ensures p + (b + (i + m + n) + a) + q == (p + b + i) + m + (n + a + q)
  {
  }

  lemma OccursBetween(x: string, b: string, y: string)
    ensures OccursAt(x + b + y, b, |x|)
  {
    assert (x + b + y)[|x|..|x| + |b|] == b;
  }

  /** Where each piece of a three-part concatenation sits. */
  lemma OccursInFirst(a: string, b: string, c: string, x: string, y: string)
    ensures OccursAt((a + b + c) + x + y, b, |a|)
  {
    assert ((a + b + c) + x + y)[|a|..|a| + |b|] == b;
  }

  lemma OccursInLast(x: string, y: string, a: string, b: string, c: string)
    ensures Contains(x + y + (a + b + c), b)
  {
    assert OccursAt(x + y + (a + b + c), b, |x| + |y| + |a|) by {
      assert (x + y + (a + b + c))[|x| + |y| + |a|..|x| + |y| + |a| + |b|] == b;
    }
  }
}

=== FILE: references.dfy ===
/**
 * Grade level to reference-document resolution: the fixed table in
 * `get_reference_file`, the grade choices offered by the form, and the
 * path `load_pdf_by_grade` builds from a table entry.
 */
module References {
  import opened Wrappers
  import opened Text

  /** `str(n)` for a single decimal digit. */
  function DigitText(n: nat): string
    requires n <= 9
  {
    ["0123456789"[n]]
  }

  /** The label `f"Grade {n}"` for a single-digit grade number. */
  function GradeLabel(n: nat): string
    requires n <= 9
  {
    "Grade " + DigitText(n)
  }

  /** The choices of the grade selector, in display order. */
  const GradeOptions: seq<string> :=
    ["Kindergarten"] + GradeLabels(1, 9) + ["Algebra 1", "Algebra 2", "Geometry"]

  /** `[f"Grade {i}" for i in range(lo, hi)]`. */
  function GradeLabels(lo: nat, hi: nat): seq<string>
    requires lo <= hi <= 10
    decreases hi - lo
  {
    if lo == hi then [] else [GradeLabel(lo)] + GradeLabels(lo + 1, hi)
  }

  /** The lookup table; several grades share one reference document. */
  const GradeMapping: map<string, string> := map[
    "Kindergarten" := "grade_3.pdf",
    "Grade 1" := "grade_3.pdf",
    "Grade 2" := "grade_3.pdf",
    "Grade 3" := "grade_3.pdf",
    "Grade 4" := "grade_4.pdf",
    "Grade 5" := "grade_5.pdf",
    "Grade 6" := "grade_6.pdf",
    "Grade 7" := "grade_7.pdf",
    "Grade 8" := "grade_8.pdf",
    "Algebra 1" := "algebra_1.pdf",
    "Algebra 2" := "algebra_1.pdf",
    "Geometry" := "algebra_1.pdf"
  ]

  /** The documents the table refers to. */
  const ReferenceFiles: set<string> :=
    {"grade_3.pdf", "grade_4.pdf", "grade_5.pdf", "grade_6.pdf", "grade_7.pdf", "grade_8.pdf", "algebra_1.pdf"}

  /** The directory the reference documents are read from. */
  const ReferenceDirectory := "reference_materials/"

  /** The twelve choices are exactly these labels. */
  lemma GradeOptionsListed()
    ensures GradeOptions == ["Kindergarten", "Grade 1", "Grade 2", "Grade 3", "Grade 4", "Grade 5",
                             "Grade 6", "Grade 7", "Grade 8", "Algebra 1", "Algebra 2", "Geometry"]
  {
    GradeLabelsListed();
  }

  lemma GradeLabelsListed()
    ensures GradeLabels(1, 9) == ["Grade 1", "Grade 2", "Grade 3", "Grade 4",
                                  "Grade 5", "Grade 6", "Grade 7", "Grade 8"]
  {
    assert GradeLabel(1) == "Grade 1";
    assert GradeLabel(2) == "Grade 2";
    assert GradeLabel(3) == "Grade 3";
    assert GradeLabel(4) == "Grade 4";
    assert GradeLabel(5) == "Grade 5";
    assert GradeLabel(6) == "Grade 6";
    assert GradeLabel(7) == "Grade 7";
    assert GradeLabel(8) == "Grade 8";
  }

  /**
   * `grade_mapping.get(grade)`: total, never fails, and has an answer for
   * exactly the labels the grade selector offers.
   */
  function GetReferenceFile(grade: string): (r: Option<string>)
    ensures r.Some? <==> grade in GradeOptions
    ensures r.Some? ==> r.value in ReferenceFiles
  {
    GradeOptionsListed();
    if grade in GradeMapping then Some(GradeMapping[grade]) else None
  }

  /** Kindergarten through Grade 3 all use the Grade 3 document. */
  lemma EarlyGradesShareGrade3File()
    ensures GetReferenceFile("Kindergarten") == Some("grade_3.pdf")
    ensures GetReferenceFile("Grade 1") == Some("grade_3.pdf")
    ensures GetReferenceFile("Grade 2") == Some("grade_3.pdf")
    ensures GetReferenceFile("Grade 3") == Some("grade_3.pdf")
  {
    GradeOptionsListed();
    assert GradeMapping["Kindergarten"] == "grade_3.pdf";
    assert GradeMapping["Grade 1"] == "grade_3.pdf";
    assert GradeMapping["Grade 2"] == "grade_3.pdf";
    assert GradeMapping["Grade 3"] == "grade_3.pdf";
  }

  /** Grades 4 to 8 each have their own document, named after the grade number. */
  lemma MiddleGradesOwnFile(n: nat)
    requires 4 <= n <= 8
    ensures GetReferenceFile(GradeLabel(n)) == Some("grade_" + DigitText(n) + ".pdf")
  {
    GradeLabelsListed();
    assert GradeLabel(n) == GradeLabels(1, 9)[n - 1];
    GradeOptionsListed();
    if n == 4 {
      assert "grade_" + DigitText(n) + ".pdf" == "grade_4.pdf";
    } else if n == 5 {
      assert "grade_" + DigitText(n) + ".pdf" == "grade_5.pdf";
    } else if n == 6 {
      assert "grade_" + DigitText(n) + ".pdf" == "grade_6.pdf";
    } else if n == 7 {
      assert "grade_" + DigitText(n) + ".pdf" == "grade_7.pdf";
    } else {
      assert "grade_" + DigitText(n) + ".pdf" == "grade_8.pdf";
    }
  }

  /** Algebra 1, Algebra 2 and Geometry all use the Algebra 1 document. */
  lemma HighSchoolCoursesShareAlgebraFile()
    ensures GetReferenceFile("Algebra 1") == Some("algebra_1.pdf")
    ensures GetReferenceFile("Algebra 2") == Some("algebra_1.pdf")
    ensures GetReferenceFile("Geometry") == Some("algebra_1.pdf")
  {
    assert GradeMapping["Algebra 1"] == "algebra_1.pdf";
    assert GradeMapping["Algebra 2"] == "algebra_1.pdf";
    assert GradeMapping["Geometry"] == "algebra_1.pdf";
  }

  /**
   * The pure part of `load_pdf_by_grade`: no table entry gives `None` (the
   * warning branch), otherwise the document's path under the reference
   * directory.
   */
  function ReferencePath(grade: string): (r: Option<string>)
    ensures r.None? <==> grade !in GradeOptions
    ensures r.Some? ==> |r.value| > |ReferenceDirectory| + 4
                        && r.value[..|ReferenceDirectory|] == ReferenceDirectory
                        && r.value[|r.value| - 4..] == ".pdf"
    ensures r.Some? ==> r.value[|ReferenceDirectory|..] == GetReferenceFile(grade).value
  {
    match GetReferenceFile(grade)
    case None => None
    case Some(file) =>
      ReferenceFilesArePdf(file);
      var stem := file[..|file| - 4];
      assert file == stem + ".pdf";
      ThreeParts(ReferenceDirectory, stem, ".pdf");
      Some(ReferenceDirectory + file)
  }

  /**
   * Two grades are sent to the same path exactly when the table gives them
   * the same document: the path names the grade's own document.
   */
  lemma ReferencePathsAgree(a: string, b: string)
    ensures ReferencePath(a) == ReferencePath(b) <==> GetReferenceFile(a) == GetReferenceFile(b)
  {
  }

  /** Every document name carries the `.pdf` extension. */
  lemma ReferenceFilesArePdf(file: string)
    requires file in ReferenceFiles
    ensures |file| > 4 && file[|file| - 4..] == ".pdf"
  {
  }
}

=== FILE: text.dfy ===
/**
 * The Python `str` operations the response formatter calls: `strip()`,
 * `split(sep)` and `replace("\n", "<br>")`, each stated over `string` (a
 * `seq<char>`), with `Join` as the helper that states `split`'s round trip
 * and the `+=` accumulation of the HTML.
 */
module Text {
  import opened Wrappers

  /**
   * The characters Python's `str.isspace()` accepts, which `str.strip()`
   * removes: tab, line feed, vertical tab, form feed, carriage return, the
   * four information separators, space, next line, no-break space, Ogham
   * space mark, the eleven spaces from en quad to hair space, line and
   * paragraph separators, narrow no-break space, medium mathematical space
   * and ideographic space.
   */
  const WhitespaceChars: string :=
    "\t\n\U{B}\U{C}\r\U{1C}\U{1D}\U{1E}\U{1F} \U{85}\U{A0}\U{1680}"
    + "\U{2000}\U{2001}\U{2002}\U{2003}\U{2004}\U{2005}\U{2006}\U{2007}\U{2008}\U{2009}\U{200A}"
    + "\U{2028}\U{2029}\U{202F}\U{205F}\U{3000}"

  predicate IsWhitespace(c: char) {
    c in WhitespaceChars
  }

  /** Every character of `s` is whitespace (the empty string included). */
  predicate IsBlank(s: string) {
    forall i :: 0 <= i < |s| ==> IsWhitespace(s[i])
  }

  lemma BlankConcat(a: string, b: string)
    ensures IsBlank(a + b) <==> IsBlank(a) && IsBlank(b)
  {
    if IsBlank(a + b) {
      forall i | 0 <= i < |a| ensures IsWhitespace(a[i]) {
        assert a[i] == (a + b)[i];
      }
      forall i | 0 <= i < |b| ensures IsWhitespace(b[i]) {
        assert b[i] == (a + b)[|a| + i];
      }
    }
    if IsBlank(a) && IsBlank(b) {
      forall i | 0 <= i < |a + b| ensures IsWhitespace((a + b)[i]) {
        if i >= |a| {
          assert (a + b)[i] == b[i - |a|];
        }
      }
    }
  }

  // ---------------------------------------------------------------------------
  // str.strip()

  /** Drops leading whitespace: the result is a suffix of `s`. */
  function StripLeft(s: string): (r: string)
    ensures |r| <= |s| && r == s[|s| - |r|..]
    ensures IsBlank(s[..|s| - |r|])
    ensures |r| > 0 ==> !IsWhitespace(r[0])
    decreases |s|
  {
    if |s| > 0 && IsWhitespace(s[0]) then
      var r := StripLeft(s[1..]);
      StripLeftStep(s, r);
      r
    else
      assert s[..0] == [];
      s
  }

  /** Dropping one more leading whitespace character keeps the stripped prefix blank. */
  lemma StripLeftStep(s: string, r: string)
    requires |s| > 0 && IsWhitespace(s[0])
    requires |r| <= |s| - 1 && r == s[1..][|s| - 1 - |r|..]
    requires IsBlank(s[1..][..|s| - 1 - |r|])
    ensures r == s[|s| - |r|..]
    ensures IsBlank(s[..|s| - |r|])
  {
    var n := |s| - |r|;
    assert s[..n] == [s[0]] + s[1..][..n - 1];
    BlankConcat([s[0]], s[1..][..n - 1]);
  }

  /** Drops trailing whitespace: the result is a prefix of `s`. */
  function StripRight(s: string): (r: string)
    ensures |r| <= |s| && r == s[..|r|]
    ensures IsBlank(s[|r|..])
    ensures |r| > 0 ==> !IsWhitespace(r[|r| - 1])
    decreases |s|
  {
    if |s| > 0 && IsWhitespace(s[|s| - 1]) then
      var r := StripRight(s[..|s| - 1]);
      StripRightStep(s, r);
      r
    else
      assert s[|s|..] == [];
      s
  }

  /** Dropping one more trailing whitespace character keeps the stripped suffix blank. */
  lemma StripRightStep(s: string, r: string)
    requires |s| > 0 && IsWhitespace(s[|s| - 1])
    requires |r| <= |s| - 1 && r == s[..|s| - 1][..|r|]
    requires IsBlank(s[..|s| - 1][|r|..])
    ensures r == s[..|r|]
    ensures IsBlank(s[|r|..])
  {
    assert s[|r|..] == s[..|s| - 1][|r|..] + [s[|s| - 1]];
    BlankConcat(s[..|s| - 1][|r|..], [s[|s| - 1]]);
  }

  /**
   * Python's `s.strip()`: the longest slice of `s` that neither begins nor
   * ends with whitespace; it is empty exactly when `s` is blank.
   */
  function Strip(s: string): (r: string)
    ensures r == "" <==> IsBlank(s)
    ensures exists i :: OccursAt(s, r, i) && IsBlank(s[..i]) && IsBlank(s[i + |r|..])
    ensures |r| > 0 ==> !IsWhitespace(r[0]) && !IsWhitespace(r[|r| - 1])
  {
    var left := StripLeft(s);
    var r := StripRight(left);
    StripBothEnds(s, left, r);
    r
  }

  /**
   * Whitespace dropped from the front and then from the back leaves the
   * slice of `s` between a blank prefix and a blank suffix.
   */
  lemma StripBothEnds(s: string, left: string, r: string)
    requires |left| <= |s| && left == s[|s| - |left|..] && IsBlank(s[..|s| - |left|])
    requires |left| > 0 ==> !IsWhitespace(left[0])
    requires |r| <= |left| && r == left[..|r|] && IsBlank(left[|r|..])
    requires |r| > 0 ==> !IsWhitespace(r[|r| - 1])
    ensures r == "" <==> IsBlank(s)
    ensures OccursAt(s, r, |s| - |left|)
    ensures IsBlank(s[..|s| - |left|]) && IsBlank(s[|s| - |left| + |r|..])
    ensures |r| > 0 ==> !IsWhitespace(r[0])
  {
    var i := |s| - |left|;
    InnerSlice(s, i, left, r);
    BlankConcat(s[..i], left);
    if IsBlank(s) {
      assert IsBlank(left);
    }
    if |r| > 0 {
      assert r[0] == left[0];
    }
  }

  /** A prefix `r` of a suffix `left` of `s` is a slice of `s`, followed by the rest of `left`. */
  lemma InnerSlice(s: string, i: nat, left: string, r: string)
    requires i <= |s| && left == s[i..]
    requires |r| <= |left| && r == left[..|r|]
    ensures s == s[..i] + left
    ensures OccursAt(s, r, i)
    ensures s[i + |r|..] == left[|r|..]
    ensures r == "" ==> left[|r|..] == left
  {
  }

  // ---------------------------------------------------------------------------
  // Occurrences of a separator

  /** `d` occurs in `s` starting at index `i`. */
  predicate OccursAt(s: string, d: string, i: int) {
    0 <= i && i + |d| <= |s| && s[i..i + |d|] == d
  }

  predicate Contains(s: string, d: string) {
    exists i :: 0 <= i <= |s| && OccursAt(s, d, i)
  }

  /** No occurrence of `d` in `s` starts before index `k`. */
  predicate NoMatchBefore(s: string, d: string, k: int) {
    forall j :: 0 <= j < k ==> !OccursAt(s, d, j)
  }

  /** Occurrences that fit inside a prefix are occurrences in the whole string, and back. */
  lemma OccursAtPrefix(s: string, n: nat, d: string, j: int)
    requires n <= |s|
    requires j + |d| <= n
    ensures OccursAt(s[..n], d, j) <==> OccursAt(s, d, j)
  {
    if 0 <= j {
      assert s[..n][j..j + |d|] == s[j..j + |d|];
    }
  }

  /** Scans left to right from `k` for the first occurrence of `d`. */
  function FindFrom(s: string, d: string, k: nat): (r: Option<nat>)
    requires NoMatchBefore(s, d, k)
    ensures r.None? ==> !Contains(s, d)
    ensures r.Some? ==> OccursAt(s, d, r.value) && NoMatchBefore(s, d, r.value)
    decreases |s| - k
  {
    if k + |d| > |s| then None
    else if s[k..k + |d|] == d then Some(k)
    else FindFrom(s, d, k + 1)
  }

  /**
   * The leftmost occurrence of `d` in `s`, or `None` when there is none: the
   * search `str.split` performs for each separator it consumes.
   */
  function Find(s: string, d: string): (r: Option<nat>)
    ensures r.None? <==> !Contains(s, d)
    ensures r.Some? ==> OccursAt(s, d, r.value) && NoMatchBefore(s, d, r.value)
  {
    FindFrom(s, d, 0)
  }

  /** The leftmost occurrence is the one `Find` reports. */
  lemma FindLeftmost(s: string, d: string, k: nat)
    requires OccursAt(s, d, k) && NoMatchBefore(s, d, k)
    ensures Find(s, d) == Some(k)
  {
  }

  // ---------------------------------------------------------------------------
  // str.split(sep), and the helper Join

  /**
   * The parts with `d` between neighbours. It states what `str.split` must
   * give back, and with `d == ""` it is the concatenation the formatter's
   * `+=` accumulates.
   */
  function Join(parts: seq<string>, d: string): string
    decreases |parts|
  {
    if |parts| == 0 then ""
    else if |parts| == 1 then parts[0]
    else parts[0] + d + Join(parts[1..], d)
  }

  /**
   * `parts` is what a left-to-right, non-overlapping split of `s` on `d`
   * yields: joining them gives `s` back, each separator consumed is the
   * leftmost one available, and the last part holds no separator.
   */
  predicate IsSplitOf(parts: seq<string>, s: string, d: string) {
    && |parts| >= 1
    && Join(parts, d) == s
    && (forall i :: 0 <= i < |parts| - 1 ==> NoMatchBefore(parts[i] + d, d, |parts[i]|))
    && !Contains(parts[|parts| - 1], d)
  }

  /** Python's `s.split(d)` for a non-empty separator. */
  function Split(s: string, d: string): (parts: seq<string>)
    requires |d| > 0
    ensures IsSplitOf(parts, s, d)
    ensures forall i :: 0 <= i < |parts| ==> !Contains(parts[i], d)
    decreases |s|
  {
    match Find(s, d)
    case None => [s]
    case Some(i) =>
      FirstSeparator(s, d, i);
      var rest := Split(s[i + |d|..], d);
      SplitCons(s[..i], rest, s[i + |d|..], d);
      [s[..i]] + rest
  }

  /** The text before the first separator holds none, and the separator ends its first match. */
  lemma FirstSeparator(s: string, d: string, i: nat)
    requires |d| > 0
    requires OccursAt(s, d, i) && NoMatchBefore(s, d, i)
    ensures s == s[..i] + d + s[i + |d|..]
    ensures NoMatchBefore(s[..i] + d, d, i)
    ensures !Contains(s[..i], d)
  {
    assert s[..i + |d|] == s[..i] + d;
    forall j | 0 <= j < i
      ensures !OccursAt(s[..i] + d, d, j)
    {
      OccursAtPrefix(s, i + |d|, d, j);
    }
    forall j | OccursAt(s[..i], d, j)
      ensures false
    {
      OccursAtPrefix(s, i, d, j);
    }
  }

  /** A part ended by its first separator, followed by a split of the rest, is a split of the whole. */
  lemma SplitCons(head: string, rest: seq<string>, t: string, d: string)
    requires IsSplitOf(rest, t, d)
    requires NoMatchBefore(head + d, d, |head|)
    ensures IsSplitOf([head] + rest, head + d + t, d)
    ensures !Contains(head, d) && (forall i :: 0 <= i < |rest| ==> !Contains(rest[i], d))
            ==> forall i :: 0 <= i < |[head] + rest| ==> !Contains(([head] + rest)[i], d)
  {
    var parts := [head] + rest;
    assert parts[1..] == rest;
    assert Join(parts, d) == head + d + Join(rest, d);
    forall i | 0 <= i < |parts| - 1
      ensures NoMatchBefore(parts[i] + d, d, |parts[i]|)
    {
      if i > 0 {
        assert parts[i] == rest[i - 1];
      }
    }
    assert parts[|parts| - 1] == rest[|rest| - 1];
  }

  /** A split of two or more parts is its first part, a separator, and a split of the rest. */
  lemma SplitUncons(parts: seq<string>, s: string, d: string)
    requires IsSplitOf(parts, s, d) && |parts| >= 2
    ensures s == parts[0] + d + Join(parts[1..], d)
    ensures NoMatchBefore(parts[0] + d, d, |parts[0]|)
    ensures IsSplitOf(parts[1..], Join(parts[1..], d), d)
  {
    var tail := parts[1..];
    forall i | 0 <= i < |tail| - 1
      ensures NoMatchBefore(tail[i] + d, d, |tail[i]|)
    {
      assert tail[i] == parts[i + 1];
    }
    assert tail[|tail| - 1] == parts[|parts| - 1];
  }

  /** In `head + d + t`, where `d` first occurs after `head`, that occurrence is the one `Find` reports. */
  lemma FindAfterHead(head: string, d: string, t: string)
    requires NoMatchBefore(head + d, d, |head|)
    ensures Find(head + d + t, d) == Some(|head|)
    ensures (head + d + t)[..|head|] == head
    ensures (head + d + t)[|head| + |d|..] == t
  {
    var s := head + d + t;
    assert s[..|head| + |d|] == head + d;
    assert s[|head|..|head| + |d|] == d;
    forall j | 0 <= j < |head|
      ensures !OccursAt(s, d, j)
    {
      assert !OccursAt(head + d, d, j);
      OccursAtPrefix(s, |head| + |d|, d, j);
    }
    FindLeftmost(s, d, |head|);
  }

  /** The split is the only sequence of parts with the `IsSplitOf` properties. */
  lemma {:induction false} SplitUnique(parts: seq<string>, s: string, d: string)
    requires |d| > 0
    requires IsSplitOf(parts, s, d)
    ensures parts == Split(s, d)
    decreases |parts|
  {
    if |parts| == 1 {
      assert s == parts[0];
      assert Find(s, d).None?;
    } else {
      var head := parts[0];
      var tail := parts[1..];
      var t := Join(tail, d);
      SplitUncons(parts, s, d);
      FindAfterHead(head, d, t);
      SplitUnique(tail, t, d);
      assert parts == [head] + tail;
    }
  }

  /** Blank parts joined by a blank separator give a blank text. */
  lemma {:induction false} JoinAllBlank(parts: seq<string>, d: string)
    requires IsBlank(d)
    requires forall i :: 0 <= i < |parts| ==> IsBlank(parts[i])
    ensures IsBlank(Join(parts, d))
    decreases |parts|
  {
    if |parts| > 1 {
      JoinAllBlank(parts[1..], d);
      BlankConcat(parts[0], d);
      BlankConcat(parts[0] + d, Join(parts[1..], d));
    }
  }

  /**
   * Parts whose join is blank are all blank (so the split of a blank string
   * has only blank parts).
   */
  lemma {:induction false} JoinBlank(parts: seq<string>, d: string)
    requires IsBlank(Join(parts, d))
    ensures forall i :: 0 <= i < |parts| ==> IsBlank(parts[i])
    decreases |parts|
  {
    if |parts| > 1 {
      BlankConcat(parts[0] + d, Join(parts[1..], d));
      BlankConcat(parts[0], d);
      JoinBlank(parts[1..], d);
      forall i | 1 <= i < |parts|
        ensures IsBlank(parts[i])
      {
        assert parts[i] == parts[1..][i - 1];
      }
    }
  }

  /** A text built from three pieces starts with the first and ends with the last. */
  lemma ThreeParts(a: string, b: string, c: string)
    ensures (a + b + c)[..|a|] == a
    ensures (a + b + c)[|a| + |b|..] == c
    ensures |a + b + c| == |a| + |b| + |c|
  {
  }

  // ---------------------------------------------------------------------------
  // str.replace("\n", "<br>")

  const LineBreakTag := "<br>"

  /** The string holds no line feed. */
  predicate NoLineFeed(s: string) {
    forall i :: 0 <= i < |s| ==> s[i] != '\n'
  }

  /** Every line feed of `s` becomes the HTML tag `<br>`; other characters are kept. */
  function ReplaceNewlines(s: string): (r: string)
    ensures NoLineFeed(r)
    ensures |r| >= |s|
    decreases |s|
  {
    if |s| == 0 then ""
    else (if s[0] == '\n' then LineBreakTag else [s[0]]) + ReplaceNewlines(s[1..])
  }

  /** The replacement works character by character, so it distributes over concatenation. */
  lemma {:induction false} ReplaceNewlinesAppend(a: string, b: string)
    ensures ReplaceNewlines(a + b) == ReplaceNewlines(a) + ReplaceNewlines(b)
    decreases |a|
  {
    if |a| > 0 {
      var head := if a[0] == '\n' then LineBreakTag else [a[0]];
      assert (a + b)[0] == a[0];
      assert (a + b)[1..] == a[1..] + b;
      assert ReplaceNewlines(a + b) == head + ReplaceNewlines(a[1..] + b);
      ReplaceNewlinesAppend(a[1..], b);
      assert ReplaceNewlines(a) == head + ReplaceNewlines(a[1..]);
    } else {
      assert a + b == b;
    }
  }

  /**
   * On a single character the replacement turns a line feed into `<br>` and
   * keeps anything else; with `ReplaceNewlinesAppend` this fixes the result
   * on every string.
   */
  lemma ReplaceNewlinesChar(c: char)
    ensures c == '\n' ==> ReplaceNewlines([c]) == LineBreakTag
    ensures c != '\n' ==> ReplaceNewlines([c]) == [c]
  {
    assert [c][1..] == [];
  }

  /** Text without line feeds passes through unchanged. */
  lemma {:induction false} ReplaceNewlinesIdentity(s: string)
    requires NoLineFeed(s)
    ensures ReplaceNewlines(s) == s
    decreases |s|
  {
    if |s| > 0 {
      ReplaceNewlinesIdentity(s[1..]);
      assert [s[0]] + s[1..] == s;
    }
  }
}

=== FILE: wrappers.dfy ===
/** The optional value returned by a dictionary lookup that may miss. */
module Wrappers {

  /** `None` plays the role of Python's `None`. */
  datatype Option<+T> = None | Some(value: T)
}
